=== FILE: README.md ===
# Coaching scheduler store, modelled in Dafny

This project models the controller layer of a coaching-scheduling REST API.
Coaches publish time slots. A student can be assigned to a slot, and once a
slot has taken place a call record stores a satisfaction score and notes.

The relational store is abstract here. It has four tables: Coaches,
Students, Slots and Calls. Each table is a `map` from primary key to an
immutable record, plus the auto-increment counter that the next key comes
from (`Tables.Table`). Every HTTP handler is a pure transition. It takes
the store and the request, and returns a `Reply`: an outcome (`Created`,
`Ok`, `NoContent`, `NotFound` or `ServerError`) and the store after the
request. The wall clock is passed in as the parameter `now`. A slot is
*upcoming* when its start time is strictly after `now`, and *past* when it
is strictly before `now`.

Modules follow the source files:

- `Tables` (tables.dfy): the ORM's table primitives. These are INSERT with a
  fresh key, UPSERT keyed on the primary key, UPDATE and DELETE by primary
  key (each returns the affected-row count), and lookup by primary key.
- `Schema` (schema.dfy): the records, the column constraints of the Slots
  and Calls models, request bodies, outcomes, and the two store invariants.
  `StoreValid` says keys are fresh and scores are in range. `Referential`
  says every foreign key points at an existing row.
- `CoachController`, `StudentController`, `SlotsController`,
  `CallsController`: one module per controller file.

The store rejects a write (status 500) in these cases:

- a NOT NULL column is null;
- a satisfaction score is outside 1..5;
- a foreign key names a missing row.

Updates follow the order the ORM uses. The values are validated first, so
an invalid body answers 500 even when the id is absent. Next, an UPDATE that
matches no row answers 404. Only a matched row has its foreign keys checked.

In one place the source's comment and its code disagree. The comment on the
per-coach slot listing says "less than", but the operator is
greater-than. The model follows the operator, so the listing holds upcoming
slots.

## Model

| member | source | states |
|---|---|---|
| Tables.Insert | backend/models/Slots.js:7-11 | An auto-incremented key is new: it is above every key in use, the row is stored under it, and the counter moves past it. |
| Tables.Upsert | backend/controllers/slotsController.js:126 | An upsert with a key writes the row under that key. One without a key gets an auto-incremented key at or above the counter. The counter never goes down. Either way, only that key's row changes. |
| Tables.UpdateByPk | backend/controllers/coachController.js:49-56 | An UPDATE by primary key affects one row exactly when the key exists. With no match the table is unchanged. |
| Tables.DestroyByPk | backend/controllers/coachController.js:70-73 | A DELETE by primary key removes exactly that key and reports one row exactly when it existed. The counter is kept, so auto-increment never hands a deleted key out again. An explicit-key upsert can still write it back. |
| Schema.EmptyDb | backend/app.js:21-70 | The store of a fresh database, once `sequelize.sync` (line 70) has created the empty tables, satisfies both invariants: fresh keys and valid scores, and the foreign keys declared by the associations (lines 21-28). |
| Schema.SlotRefsGuardReferential | backend/models/Slots.js:12-31 | The `references` on coach_id and student_id (a null student_id references nothing) are exactly what keeps a slot write referentially intact: the store stays intact if and only if the slot's own keys name stored rows. |
| Schema.CallRefsGuardReferential | backend/models/Calls.js:11-18 | The `references` on slot_id is exactly what keeps a call write referentially intact: the store stays intact if and only if slot_id names a stored slot. |
| Tables.FindByPk | backend/controllers/coachController.js:32 | `findByPk` returns a row exactly when the key is stored, and then that key's row. Every get, and every re-read after an update, in the four controllers goes through it. |
| Schema.SlotFields | backend/models/Slots.js:12-31 | A slot body passes validation exactly when coach_id and start_time are non-null. student_id may be null. |
| Schema.CallFields | backend/models/Calls.js:11-28 | A call body passes validation exactly when slot_id is non-null and a present score lies in 1..5. notes is unconstrained. |
| Schema.AccountFields | backend/controllers/coachController.js:7-9 | An account body passes exactly when name, phone_number and password are all non-null. |
| CoachController.CreateCoach | backend/controllers/coachController.js:6-15 | Answers 201 exactly when the three fields are present. The coach is stored under a key no existing coach has, and the other tables are untouched. Otherwise it answers 500 with the store unchanged. Both invariants are preserved. |
| CoachController.GetAllCoaches | backend/controllers/coachController.js:18-26 | Answers 200 with every stored coach and no other. |
| CoachController.GetCoachById | backend/controllers/coachController.js:29-41 | Answers 404 exactly when the id is absent. Otherwise it answers 200 with that coach. |
| CoachController.UpdateCoach | backend/controllers/coachController.js:44-64 | Invalid fields give 500. An absent id gives 404. Neither changes the store. Otherwise only that coach's three fields are replaced, and the re-read row is returned. The key counter is kept. |
| CoachController.DeleteCoach | backend/controllers/coachController.js:67-79 | Answers 204 exactly when the coach existed, and removes exactly that coach. Otherwise it answers 404. The key counter is kept. |
| CoachController.CreateThenGet | backend/controllers/coachController.js:9-36 | Reading back a created coach answers 200 with the posted name, phone_number and password. |
| CoachController.DeleteThenGone | backend/controllers/coachController.js:32-35 | After a delete, get, update and a second delete of that id all answer 404. |
| CoachController.DeletedIdNotReused | backend/controllers/coachController.js:9 | A coach created after a delete never receives the deleted key. |
| CoachController.CreatedIsListed | backend/controllers/coachController.js:6-26 | A created coach appears in the full listing with the posted fields, next to every coach listed before. |
| CoachController.DeletedIsUnlisted | backend/controllers/coachController.js:18-79 | After a delete the full listing lacks that coach and still holds every other one. |
| StudentController.CreateStudent | backend/controllers/studentController.js:4-13 | Answers 201 exactly when the three fields are present, under a fresh key. Otherwise it answers 500 with the store unchanged. |
| StudentController.GetAllStudents | backend/controllers/studentController.js:16-24 | Answers 200 with every stored student. |
| StudentController.GetStudentById | backend/controllers/studentController.js:27-39 | Answers 404 exactly when the id is absent. Otherwise it answers 200 with that student. |
| StudentController.UpdateStudent | backend/controllers/studentController.js:42-62 | Invalid fields give 500 and an absent id gives 404, both with the store unchanged. Otherwise only that student's three fields change. The key counter is kept. |
| StudentController.DeleteStudent | backend/controllers/studentController.js:65-77 | Removes exactly that student and answers 204. An absent id answers 404. The key counter is kept. |
| StudentController.CreateThenGet | backend/controllers/studentController.js:7-34 | Reading back a created student answers 200 with the posted fields. |
| StudentController.DeleteThenGone | backend/controllers/studentController.js:68-71 | A repeated delete, a get and an update of a deleted student all answer 404. |
| StudentController.DeletedIdNotReused | backend/controllers/studentController.js:7 | A student created after a delete never receives the deleted key. |
| StudentController.CreatedIsListed | backend/controllers/studentController.js:4-24 | A created student appears in the full listing with the posted fields, next to every student listed before. |
| StudentController.DeletedIsUnlisted | backend/controllers/studentController.js:16-77 | After a delete the full listing lacks that student and still holds every other one. |
| SlotsController.HavingCountZeroIffNoCall | backend/controllers/slotsController.js:150-155 | The left outer join gives a slot one row per referencing call, or one row with a NULL call when it has none. Grouping by `(Slots.slot_id, Calls.call_id)` makes each row its own group, with `COUNT(Calls.slot_id)` 1 for a call and 0 for NULL. So some group of the slot passes `HAVING COUNT = 0` exactly when no call references the slot. |
| SlotsController.BulkFreshKeysAboveCounter | backend/controllers/slotsController.js:125-128 | Every record of a keyless bulk item gets a key at or above the slots counter the request started from, so it differs from every key issued before, deleted ones included. |
| SlotsController.StudentOf | backend/controllers/slotsController.js:52 | The joined student is present exactly when student_id is non-null and names a stored student (a left outer join). |
| SlotsController.CoachOf | backend/controllers/slotsController.js:72 | The joined coach is present exactly when coach_id names a stored coach. |
| SlotsController.CreateSlot | backend/controllers/slotsController.js:9-17 | Answers 201 exactly when coach_id and start_time are present, the coach exists, and any student_id names a student. The slot gets a key at or above the table's counter, so it differs from every key issued before, deleted ones included. Otherwise it answers 500 with the store unchanged. |
| SlotsController.GetAllSlots | backend/controllers/slotsController.js:20-36 | Returns exactly the slots whose start time is strictly after `now`. |
| SlotsController.GetSlotsByCoachId | backend/controllers/slotsController.js:40-63 | Returns exactly the coach's slots starting strictly after `now`, each with its student or null. Answers 404, never an empty 200, when there are none. |
| SlotsController.GetSlotsByStudentId | backend/controllers/slotsController.js:66-83 | Returns every slot of the student regardless of time, each with its coach. Answers 404 when there are none. |
| SlotsController.UpdateSlot | backend/controllers/slotsController.js:87-102 | A null coach_id or start_time gives 500. Otherwise an absent id gives 404, and a dangling foreign key on an existing slot gives 500. In every failure the store is unchanged. On success the three columns are replaced, all other slots are untouched, and the re-read row is returned. The key counter is kept. |
| SlotsController.DeleteSlot | backend/controllers/slotsController.js:105-117 | Removes exactly that slot and answers 204. An absent id answers 404. The key counter is kept. |
| SlotsController.GetPastSlotsWithoutCallsByCoachId | backend/controllers/slotsController.js:136-166 | Returns exactly the coach's slots that start strictly before `now`, have a student, and are referenced by no call. Answers 404 when there are none. |
| SlotsController.UpcomingAndPastDisjoint | backend/controllers/slotsController.js:24-156 | No slot is both upcoming and past-without-calls. A slot starting exactly at `now` is in none of the three time-filtered listings. |
| SlotsController.CoachListingWithinAll | backend/controllers/slotsController.js:24-53 | The per-coach listing holds exactly the coach's entries of the unfiltered upcoming listing. |
| SlotsController.UpcomingShrinksOverTime | backend/controllers/slotsController.js:20-30 | As `now` advances, slots only leave the upcoming listing. |
| SlotsController.CreatedAssignedIsListed | backend/controllers/slotsController.js:9-83 | A slot created with a student_id appears in that student's listing, which answers 200, whatever the slot's start time, joined with the slot's coach. |
| SlotsController.DeletedIdNotReused | backend/controllers/slotsController.js:12 | A slot created after a delete never receives the deleted key. This holds when the create follows directly, and also when an update and a bulk request come in between. No keyless item of that bulk request receives it either. |
| SlotsController.CreatedUpcomingIsListed | backend/controllers/slotsController.js:9-59 | A slot created with a start time after `now` appears in the upcoming listing and in its coach's listing. |
| SlotsController.DeleteThenGone | backend/controllers/slotsController.js:105-112 | After a delete, a second delete and an update of the same id answer 404. |
| SlotsController.UpsertSlot | backend/controllers/slotsController.js:126 | One upsert succeeds exactly when the item validates and its foreign keys exist. It writes under the item's key, or under a key at or above the slots counter when the item names none, and only that row changes. |
| SlotsController.RunUpserts | backend/controllers/slotsController.js:120-133 | Items are applied in order. A failed run stops at the first rejected item, whose index is the number of records written. A successful run wrote one record per item. Only the slots table changes, and its key counter never goes down. |
| SlotsController.CreateOrUpdateBulkSlots | backend/controllers/slotsController.js:120-133 | The request loop answers 200 with one record per item exactly when no item is rejected. Otherwise it answers 500, which needs at least one item. Either way the store is the one the in-order run reached. |
| SlotsController.BulkRecordsFollowItems | backend/controllers/slotsController.js:125-128 | Record i holds the columns of item i, under the item's own key when it named one. |
| SlotsController.BulkLeavesOthers | backend/controllers/slotsController.js:125-127 | A slot under a key that no item wrote is exactly as it was before the request. |
| SlotsController.BulkKeepsEarlierWrites | backend/controllers/slotsController.js:125-131 | A record that no later item overwrote is in the final store. This holds when the run failed part-way, too: nothing is rolled back. |
| SlotsController.BulkFailureKeepsPrefix | backend/controllers/slotsController.js:125-131 | When item k is rejected, the store and the records equal those of a successful request holding only items 0..k-1. |
| SlotsController.BulkPreservesReferential | backend/controllers/slotsController.js:126 | A bulk run keeps every foreign key pointing at an existing row. |
| SlotsController.BulkUpdateThenInsert | backend/controllers/slotsController.js:125-128 | Two items, one naming an existing key and one naming none, update that row and add exactly one new row. |
| CallsController.CreateCall | backend/controllers/callsController.js:4-12 | Answers 201 exactly when slot_id is present and names a slot, and any score lies in 1..5. The call gets a key at or above the table's counter, so it differs from every key issued before, deleted ones included, and it stores slot_id, score and notes. Otherwise it answers 500 with the store unchanged. |
| CallsController.GetAllCallsByCoachId | backend/controllers/callsController.js:14-33 | Returns exactly the calls whose slot exists and belongs to the coach, each with that slot (an inner join). Answers 404 when there are none. |
| CallsController.UpdateCall | backend/controllers/callsController.js:35-52 | A null slot_id or out-of-range score gives 500. Otherwise an absent id gives 404, and a missing slot for an existing call gives 500, all with the store unchanged. On success the three fields are replaced and the re-read row is returned. The key counter is kept. |
| CallsController.DeleteCall | backend/controllers/callsController.js:54-68 | Removes exactly that call and answers 204. An absent id answers 404. Foreign keys stay intact. The key counter is kept. |
| CallsController.ScoreBoundaries | backend/models/Calls.js:19-25 | Scores 0 and 6 are rejected with 500. Scores 1 and 5 are stored. |
| CallsController.CallListedUnderItsCoach | backend/controllers/callsController.js:18-23 | A call whose slot exists is listed under that slot's coach and under no other coach. |
| CallsController.CreateCallClosesSlot | backend/controllers/slotsController.js:142-156 | After a call is recorded for a slot, the slot is absent from every past-without-calls listing. |
| CallsController.DeleteCallReopensSlot | backend/controllers/callsController.js:58-60 | Deleting the only call of a past, assigned slot moves the slot from outside to inside its coach's past-without-calls listing. |
| CallsController.DeleteThenGone | backend/controllers/callsController.js:58-62 | After a delete, a second delete and an update of the same call answer 404. |
| CallsController.DeletedIdNotReused | backend/controllers/callsController.js:7 | A call created after a delete never receives the deleted key. |

## Left out

- Routing, API documentation, CORS, body parsing, and start-up with `sync`/`listen` are not modelled. They hold no controller logic.
- Transient store failures, such as a lost connection or a timeout, are not modelled. Only constraint violations produce a 500. So the list-all handlers never fail in the model, and a failure between an UPDATE and its re-read is not represented.
- The Coaches and Students model files are not part of this model. Their three columns are assumed NOT NULL, and no other constraint is assumed.
- Cascade behaviour on delete is decided by the database, so it is not modelled. Deleting a coach, student or slot removes only that row. The delete handlers state when foreign keys stay intact: when nothing references the deleted row.
- Request bodies are modelled with every field present, and JSON null is `None`. How the ORM treats an omitted (undefined) attribute is not modelled.
- Request-body values are assumed to be integers: coach_id, student_id, slot_id, and satisfaction_score. JSON also allows a fractional score such as 4.5, which passes the 1..5 validator and is then converted by the store for its INTEGER column; `CallBody.score` cannot express that request.
- Path parameters arrive as strings and are modelled as integers. Key columns are unbounded integers, not 32-bit.
- Listings are maps keyed by primary key, so the store's row order is not modelled.
- DATE columns are integer timestamps, and the clock is the parameter `now`.
- The `createdAt`/`updatedAt` columns the ORM adds are not modelled. The model uses only their consequence: an UPDATE that matches a row always counts as affected.
- An upsert with an explicit key moves the auto-increment counter past that key, as MySQL and SQLite do. A PostgreSQL sequence would not advance, so a later create could collide with that key. That store is not modelled.
- `getPastSlotsWithoutCallsByCoachId` returns each slot once, as "no call references the slot". `HavingCountZeroIffNoCall` ties this to the `(slot_id, call_id)` groups and the HAVING filter. The SQL row shape (a slot row with its empty `Calls` include) and how the store evaluates the query are not modelled.
- A bulk request body that is not a JSON array, for example an object, makes the `for...of` throw before any write, so the source answers 500 with the store unchanged. The bulk handler takes a sequence of items and cannot express that request.
- Error message text, logging, the bulk reply's message string, and password handling are not modelled. Passwords are stored and returned as given.

=== FILE: calls_controller.dfy ===
/**
 The call handlers, and how calls interact with the slot listing of past
 slots that still lack a call.
 */
module CallsController {
  import opened Tables
  import opened Schema
  import opened SlotsController

  /** POST /calls: validation (slot_id not null, score in range), then the
      insert, which the store rejects when slot_id names no slot. */
  function CreateCall(db: Db, b: CallBody): (r: Reply<Row<Call>>)
    requires StoreValid(db)
    ensures r.out.Created? || r.out.ServerError?
    ensures r.out.Created? <==>
      && b.slotId.Some?
      && ScoreOk(b.score)
      && b.slotId.value in db.slots.rows
    ensures r.out.ServerError? ==> r.db == db
    ensures r.out.Created? ==>
      && r.out.body.id !in db.calls.rows
      && db.calls.next <= r.out.body.id
      && r.out.body.rec == Call(b.slotId.value, b.score, b.notes)
      && r.db.calls.rows == db.calls.rows[r.out.body.id := r.out.body.rec]
      && r.db == db.(calls := r.db.calls)
    ensures StoreValid(r.db)
    ensures Referential(db) ==> Referential(r.db)
  {
    match CallFields(b)
    case None => Reply(ServerError, db)
    case Some(c) =>
      if !CallRefsOk(db, c) then Reply(ServerError, db)
      else
        var (row, t) := Insert(db.calls, c);
        Reply(Created(row), db.(calls := t))
  }

  /** GET /calls/coach/:coach_id: the calls whose slot belongs to the coach,
      each with its slot (an inner join); 404 when there are none. */
  function GetAllCallsByCoachId(db: Db, coachId: Id): (r: Reply<map<Id, With<Call, Slot>>>)
    ensures r.db == db
    ensures r.out.Ok? || r.out.NotFound?
    ensures r.out.Ok? ==> |r.out.body| > 0
    ensures r.out.NotFound? <==> forall cid :: cid in db.calls.rows ==>
      db.calls.rows[cid].slotId !in db.slots.rows || db.slots.rows[db.calls.rows[cid].slotId].coachId != coachId
    ensures r.out.Ok? ==> forall cid :: cid in r.out.body <==>
      && cid in db.calls.rows
      && db.calls.rows[cid].slotId in db.slots.rows
      && db.slots.rows[db.calls.rows[cid].slotId].coachId == coachId
    ensures r.out.Ok? ==> forall cid :: cid in r.out.body ==>
      r.out.body[cid] == With(db.calls.rows[cid], db.slots.rows[db.calls.rows[cid].slotId])
  {
    var found := map cid | cid in db.calls.rows
                           && db.calls.rows[cid].slotId in db.slots.rows
                           && db.slots.rows[db.calls.rows[cid].slotId].coachId == coachId
                   :: With(db.calls.rows[cid], db.slots.rows[db.calls.rows[cid].slotId]);
    // `length === 0` as "no row passes the filter" (see GetSlotsByCoachId).
    if forall cid :: cid in db.calls.rows ==>
         !(db.calls.rows[cid].slotId in db.slots.rows && db.slots.rows[db.calls.rows[cid].slotId].coachId == coachId)
    then Reply(NotFound, db)
    else
      assert forall cid :: (cid in db.calls.rows && db.calls.rows[cid].slotId in db.slots.rows
                            && db.slots.rows[db.calls.rows[cid].slotId].coachId == coachId) ==> cid in found;
      SizeOfNonEmpty(found);
      Reply(Ok(found), db)
  }

  /** PUT /calls/:id: validation first, then the UPDATE (whose foreign key
      the store checks for a matched row), then a re-read. */
  function UpdateCall(db: Db, id: Id, b: CallBody): (r: Reply<Row<Call>>)
    ensures r.out.Ok? || r.out.NotFound? || r.out.ServerError?
    ensures r.out.NotFound? <==> b.slotId.Some? && ScoreOk(b.score) && id !in db.calls.rows
    ensures r.out.ServerError? <==>
      || b.slotId.None?
      || !ScoreOk(b.score)
      || (id in db.calls.rows && b.slotId.value !in db.slots.rows)
    ensures !r.out.Ok? ==> r.db == db
    ensures r.out.Ok? ==>
      && r.out.body == Row(id, Call(b.slotId.value, b.score, b.notes))
      && r.db.calls.rows.Keys == db.calls.rows.Keys
      && r.db.calls.next == db.calls.next
      && r.db.calls.rows[id] == r.out.body.rec
      && (forall k :: k in db.calls.rows && k != id ==> r.db.calls.rows[k] == db.calls.rows[k])
      && r.db == db.(calls := r.db.calls)
    ensures StoreValid(db) ==> StoreValid(r.db)
    ensures Referential(db) ==> Referential(r.db)
  {
    match CallFields(b)
    case None => Reply(ServerError, db)
    case Some(c) =>
      if id in db.calls.rows && !CallRefsOk(db, c) then Reply(ServerError, db)
      else
        var (updated, t) := UpdateByPk(db.calls, id, c);
        if updated == 0 then Reply(NotFound, db)
        else
          var db' := db.(calls := t);
          Reply(Ok(Row(id, FindByPk(db'.calls, id).value)), db')
  }

  /** DELETE /calls/:id. */
  function DeleteCall(db: Db, id: Id): (r: Reply<()>)
    ensures r.out.NoContent? || r.out.NotFound?
    ensures r.out.NoContent? <==> id in db.calls.rows
    ensures r.out.NotFound? ==> r.db == db
    ensures r.db.calls.rows == db.calls.rows - {id}
    ensures r.db.calls.next == db.calls.next
    ensures r.db == db.(calls := r.db.calls)
    ensures StoreValid(db) ==> StoreValid(r.db)
    ensures Referential(db) ==> Referential(r.db)
  {
    var (deleted, t) := DestroyByPk(db.calls, id);
    if deleted == 0 then Reply(NotFound, db)
    else Reply(NoContent, db.(calls := t))
  }

  /** Scores 0 and 6 are rejected with a 500; scores 1 and 5 are stored. */
  lemma ScoreBoundaries(db: Db, sid: Id, notes: Option<string>)
    requires StoreValid(db)
    requires sid in db.slots.rows
    ensures CreateCall(db, CallBody(Some(sid), Some(0), notes)).out.ServerError?
    ensures CreateCall(db, CallBody(Some(sid), Some(6), notes)).out.ServerError?
    ensures CreateCall(db, CallBody(Some(sid), Some(1), notes)).out.Created?
    ensures CreateCall(db, CallBody(Some(sid), Some(5), notes)).out.Created?
  {
  }

  /** Every call whose slot exists is listed under that slot's coach and
      under no other coach. */
  lemma CallListedUnderItsCoach(db: Db, cid: Id, other: Id)
    requires cid in db.calls.rows && db.calls.rows[cid].slotId in db.slots.rows
    requires other != db.slots.rows[db.calls.rows[cid].slotId].coachId
    ensures var own := GetAllCallsByCoachId(db, db.slots.rows[db.calls.rows[cid].slotId].coachId).out;
      own.Ok? && cid in own.body
    ensures var theirs := GetAllCallsByCoachId(db, other).out;
      theirs.Ok? ==> cid !in theirs.body
  {
  }

  /** Recording a call for a slot removes the slot from the listing of past
      slots without calls. */
  lemma CreateCallClosesSlot(db: Db, b: CallBody, now: Time, coachId: Id)
    requires StoreValid(db)
    requires CreateCall(db, b).out.Created?
    ensures var after := GetPastSlotsWithoutCallsByCoachId(CreateCall(db, b).db, now, coachId).out;
      after.Ok? ==> b.slotId.value !in after.body
  {
    var c := CreateCall(db, b);
    var cid := c.out.body.id;
    assert cid in c.db.calls.rows && c.db.calls.rows[cid].slotId == b.slotId.value;
  }

  /** Deleting the only call of a past, assigned slot makes the slot show up
      again among its coach's past slots without calls. */
  lemma DeleteCallReopensSlot(db: Db, cid: Id, now: Time)
    requires cid in db.calls.rows
    requires var sid := db.calls.rows[cid].slotId;
      && sid in db.slots.rows
      && db.slots.rows[sid].startTime < now
      && db.slots.rows[sid].studentId.Some?
      && forall other :: other in db.calls.rows && other != cid ==> db.calls.rows[other].slotId != sid
    ensures var sid := db.calls.rows[cid].slotId;
            var coach := db.slots.rows[sid].coachId;
            var before := GetPastSlotsWithoutCallsByCoachId(db, now, coach).out;
            var after := GetPastSlotsWithoutCallsByCoachId(DeleteCall(db, cid).db, now, coach).out;
      && (before.Ok? ==> sid !in before.body)
      && after.Ok? && sid in after.body
  {
  }

  /** A deleted call is gone: a second delete and an update both answer 404. */
  lemma DeleteThenGone(db: Db, id: Id, b: CallBody)
    requires DeleteCall(db, id).out.NoContent?
    requires CallFields(b).Some?
    ensures var d := DeleteCall(db, id).db;
      && DeleteCall(d, id).out.NotFound?
      && UpdateCall(d, id, b).out.NotFound?
  {
  }

  /** A call key once deleted is never handed out again by a later create. */
  lemma DeletedIdNotReused(db: Db, id: Id, b: CallBody)
    requires StoreValid(db)
    requires DeleteCall(db, id).out.NoContent?
    ensures var c := CreateCall(DeleteCall(db, id).db, b);
      c.out.Created? ==> c.out.body.id != id
  {
  }
}

=== FILE: coach_controller.dfy ===
/**
 The coach handlers: create, list, get, update and delete over the Coaches
 table. Each handler is a transition from the store to a reply.
 */
module CoachController {
  import opened Tables
  import opened Schema

  /** POST /coaches: insert a coach under a freshly allocated key. */
  function CreateCoach(db: Db, b: AccountBody): (r: Reply<Row<Account>>)
    requires StoreValid(db)
    ensures r.out.Created? || r.out.ServerError?
    ensures r.out.Created? <==> b.name.Some? && b.phoneNumber.Some? && b.password.Some?
    ensures r.out.ServerError? ==> r.db == db
    ensures r.out.Created? ==>
      && r.out.body.id !in db.coaches.rows
      && db.coaches.next <= r.out.body.id
      && r.out.body.rec == Account(b.name.value, b.phoneNumber.value, b.password.value)
      && r.db.coaches.rows == db.coaches.rows[r.out.body.id := r.out.body.rec]
      && r.db == db.(coaches := r.db.coaches)
    ensures StoreValid(r.db)
    ensures Referential(db) ==> Referential(r.db)
  {
    match AccountFields(b)
    case None => Reply(ServerError, db)
    case Some(a) =>
      var (row, t) := Insert(db.coaches, a);
      Reply(Created(row), db.(coaches := t))
  }

  /** GET /coaches: every stored coach. */
  function GetAllCoaches(db: Db): (r: Reply<map<Id, Account>>)
    ensures r.db == db && r.out.Ok?
    ensures r.out.body.Keys == db.coaches.rows.Keys
    ensures forall id :: id in r.out.body ==> r.out.body[id] == db.coaches.rows[id]
  {
    Reply(Ok(db.coaches.rows), db)
  }

  /** GET /coaches/:id. */
  function GetCoachById(db: Db, id: Id): (r: Reply<Row<Account>>)
    ensures r.db == db
    ensures r.out.Ok? || r.out.NotFound?
    ensures r.out.NotFound? <==> id !in db.coaches.rows
    ensures r.out.Ok? ==> r.out.body == Row(id, db.coaches.rows[id])
  {
    match FindByPk(db.coaches, id)
    case None => Reply(NotFound, db)
    case Some(a) => Reply(Ok(Row(id, a)), db)
  }

  /** PUT /coaches/:id: validation first, then the UPDATE, then a re-read. */
  function UpdateCoach(db: Db, id: Id, b: AccountBody): (r: Reply<Row<Account>>)
    ensures r.out.Ok? || r.out.NotFound? || r.out.ServerError?
    ensures r.out.ServerError? <==> AccountFields(b).None?
    ensures r.out.NotFound? <==> AccountFields(b).Some? && id !in db.coaches.rows
    ensures !r.out.Ok? ==> r.db == db
    ensures r.out.Ok? ==>
      && id in db.coaches.rows
      && r.out.body == Row(id, Account(b.name.value, b.phoneNumber.value, b.password.value))
      && r.db.coaches.rows.Keys == db.coaches.rows.Keys
      && r.db.coaches.next == db.coaches.next
      && r.db.coaches.rows[id] == r.out.body.rec
      && (forall k :: k in db.coaches.rows && k != id ==> r.db.coaches.rows[k] == db.coaches.rows[k])
      && r.db == db.(coaches := r.db.coaches)
    ensures StoreValid(db) ==> StoreValid(r.db)
    ensures Referential(db) ==> Referential(r.db)
  {
    match AccountFields(b)
    case None => Reply(ServerError, db)
    case Some(a) =>
      var (updated, t) := UpdateByPk(db.coaches, id, a);
      if updated == 0 then Reply(NotFound, db)
      else
        var db' := db.(coaches := t);
        Reply(Ok(Row(id, FindByPk(db'.coaches, id).value)), db')
  }

  /** DELETE /coaches/:id. Referencing slots are left alone (the store's
      cascade rules are not modelled). */
  function DeleteCoach(db: Db, id: Id): (r: Reply<()>)
    ensures r.out.NoContent? || r.out.NotFound?
    ensures r.out.NoContent? <==> id in db.coaches.rows
    ensures r.out.NotFound? ==> r.db == db
    ensures r.db.coaches.rows == db.coaches.rows - {id}
    ensures r.db.coaches.next == db.coaches.next
    ensures r.db == db.(coaches := r.db.coaches)
    ensures StoreValid(db) ==> StoreValid(r.db)
    ensures Referential(db) && (forall sid :: sid in db.slots.rows ==> db.slots.rows[sid].coachId != id) ==> Referential(r.db)
  {
    var (deleted, t) := DestroyByPk(db.coaches, id);
    if deleted == 0 then Reply(NotFound, db)
    else Reply(NoContent, db.(coaches := t))
  }

  /** Reading back a created coach yields the fields that were posted. */
  lemma CreateThenGet(db: Db, b: AccountBody)
    requires StoreValid(db)
    requires CreateCoach(db, b).out.Created?
    ensures var c := CreateCoach(db, b);
      GetCoachById(c.db, c.out.body.id).out == Ok(c.out.body)
      && c.out.body.rec.name == b.name.value
      && c.out.body.rec.phoneNumber == b.phoneNumber.value
      && c.out.body.rec.password == b.password.value
  {
  }

  /** After a delete the coach is gone: reading it, updating it or deleting
      it again all answer 404. */
  lemma DeleteThenGone(db: Db, id: Id, b: AccountBody)
    requires DeleteCoach(db, id).out.NoContent?
    requires AccountFields(b).Some?
    ensures var d := DeleteCoach(db, id).db;
      && GetCoachById(d, id).out.NotFound?
      && DeleteCoach(d, id).out.NotFound?
      && UpdateCoach(d, id, b).out.NotFound?
  {
  }

  /** A key once deleted is never handed out again by a later create. */
  lemma DeletedIdNotReused(db: Db, id: Id, b: AccountBody)
    requires StoreValid(db)
    requires DeleteCoach(db, id).out.NoContent?
    requires AccountFields(b).Some?
    ensures var c := CreateCoach(DeleteCoach(db, id).db, b);
      c.out.Created? && c.out.body.id != id
  {
  }

  /** A created coach appears in the full listing with the posted fields. */
  lemma CreatedIsListed(db: Db, b: AccountBody)
    requires StoreValid(db)
    requires CreateCoach(db, b).out.Created?
    ensures var c := CreateCoach(db, b);
            var all := GetAllCoaches(c.db).out.body;
      && c.out.body.id in all
      && all[c.out.body.id] == Account(b.name.value, b.phoneNumber.value, b.password.value)
      && all.Keys == GetAllCoaches(db).out.body.Keys + {c.out.body.id}
  {
  }

  /** A deleted coach no longer appears in the full listing, and every other
      coach still does. */
  lemma DeletedIsUnlisted(db: Db, id: Id)
    ensures var all := GetAllCoaches(DeleteCoach(db, id).db).out.body;
      && id !in all
      && all.Keys == GetAllCoaches(db).out.body.Keys - {id}
  {
  }
}

=== FILE: schema.dfy ===
/**
 The four tables of the coaching store, the column constraints the schema
 declares, and the shape of a handler's reply (an HTTP outcome plus the store
 after the request).
 */
module Schema {
  import opened Tables

  /** Timestamps (the DATE columns) as integers; larger is later. */
  type Time = int

  /** A coach or a student: both tables carry the same three columns. */
  datatype Account = Account(name: string, phoneNumber: string, password: string)

  /** A scheduled coaching slot; `studentId` is None while unassigned. */
  datatype Slot = Slot(coachId: Id, startTime: Time, studentId: Option<Id>)

  /** The record of a finished call for a slot. */
  datatype Call = Call(slotId: Id, score: Option<int>, notes: Option<string>)

  datatype Db = Db(coaches: Table<Account>, students: Table<Account>,
                   slots: Table<Slot>, calls: Table<Call>)

  /** The status a handler answers with: 201, 200, 204, 404 or 500. */
  datatype Outcome<+T> = Created(body: T) | Ok(body: T) | NoContent | NotFound | ServerError

  /** What a handler produces: its outcome and the store after the request. */
  datatype Reply<+T> = Reply(out: Outcome<T>, db: Db)

  /** A row together with a row it was joined with (an ORM `include`). */
  datatype With<+R, +A> = With(rec: R, assoc: A)

  /** Request bodies. A JSON null arrives as None. */
  datatype AccountBody = AccountBody(name: Option<string>, phoneNumber: Option<string>, password: Option<string>)
  datatype SlotBody = SlotBody(coachId: Option<Id>, startTime: Option<Time>, studentId: Option<Id>)
  datatype CallBody = CallBody(slotId: Option<Id>, score: Option<int>, notes: Option<string>)

  /** Bounds of the satisfaction_score validator. */
  const MinScore: int := 1
  const MaxScore: int := 5

  predicate ScoreOk(score: Option<int>)
  {
    score.Some? ==> MinScore <= score.value <= MaxScore
  }

  /** The invariant the store keeps: fresh keys in every table and every
      stored score within the validator's bounds. */
  ghost predicate StoreValid(db: Db)
  {
    && Valid(db.coaches) && Valid(db.students) && Valid(db.slots) && Valid(db.calls)
    && forall cid :: cid in db.calls.rows ==> ScoreOk(db.calls.rows[cid].score)
  }

  /** Every foreign key points at an existing row. */
  ghost predicate Referential(db: Db)
  {
    && (forall sid :: sid in db.slots.rows ==> SlotRefsOk(db, db.slots.rows[sid]))
    && (forall cid :: cid in db.calls.rows ==> CallRefsOk(db, db.calls.rows[cid]))
  }

  /** The store before any request. */
  function EmptyDb(): (db: Db)
    ensures StoreValid(db) && Referential(db)
    ensures |db.coaches.rows| == 0 && |db.students.rows| == 0
    ensures |db.slots.rows| == 0 && |db.calls.rows| == 0
  {
    Db(Empty(), Empty(), Empty(), Empty())
  }

  /** Model-level validation before a Coaches or Students write: the three
      columns are NOT NULL. None means the ORM raises. */
  function AccountFields(b: AccountBody): (a: Option<Account>)
    ensures a.Some? <==> b.name.Some? && b.phoneNumber.Some? && b.password.Some?
    ensures a.Some? ==> a.value == Account(b.name.value, b.phoneNumber.value, b.password.value)
  {
    if b.name.Some? && b.phoneNumber.Some? && b.password.Some?
    then Some(Account(b.name.value, b.phoneNumber.value, b.password.value))
    else None
  }

  /** Model-level validation before a Slots write: coach_id and start_time are
      NOT NULL, student_id may be null. */
  function SlotFields(b: SlotBody): (s: Option<Slot>)
    ensures s.Some? <==> b.coachId.Some? && b.startTime.Some?
    ensures s.Some? ==> s.value == Slot(b.coachId.value, b.startTime.value, b.studentId)
  {
    if b.coachId.Some? && b.startTime.Some?
    then Some(Slot(b.coachId.value, b.startTime.value, b.studentId))
    else None
  }

  /** Model-level validation before a Calls write: slot_id is NOT NULL and a
      present satisfaction_score lies in MinScore..MaxScore. */
  function CallFields(b: CallBody): (c: Option<Call>)
    ensures c.Some? <==> b.slotId.Some? && ScoreOk(b.score)
    ensures c.Some? ==> c.value == Call(b.slotId.value, b.score, b.notes)
  {
    if b.slotId.Some? && ScoreOk(b.score)
    then Some(Call(b.slotId.value, b.score, b.notes))
    else None
  }

  /** The foreign keys of a slot: coach_id names a coach, a non-null
      student_id names a student. */
  predicate SlotRefsOk(db: Db, s: Slot)
  {
    && s.coachId in db.coaches.rows
    && (s.studentId.Some? ==> s.studentId.value in db.students.rows)
  }

  /** The foreign key of a call: slot_id names a slot. */
  predicate CallRefsOk(db: Db, c: Call)
  {
    c.slotId in db.slots.rows
  }

  /** The foreign-key check on a slot write is exactly what keeps the store
      referentially intact: writing slot `s` under any key leaves every
      foreign key pointing at a row if and only if `s`'s own references do. */
  lemma SlotRefsGuardReferential(db: Db, k: Id, s: Slot)
    requires Referential(db)
    ensures SlotRefsOk(db, s) <==> Referential(db.(slots := db.slots.(rows := db.slots.rows[k := s])))
  {
    var db' := db.(slots := db.slots.(rows := db.slots.rows[k := s]));
    if Referential(db') {
      assert k in db'.slots.rows && db'.slots.rows[k] == s;
    }
  }

  /** Likewise for a call write: the store stays intact if and only if the
      call's slot_id names a slot. */
  lemma CallRefsGuardReferential(db: Db, k: Id, c: Call)
    requires Referential(db)
    ensures CallRefsOk(db, c) <==> Referential(db.(calls := db.calls.(rows := db.calls.rows[k := c])))
  {
    var db' := db.(calls := db.calls.(rows := db.calls.rows[k := c]));
    if Referential(db') {
      assert k in db'.calls.rows && db'.calls.rows[k] == c;
    }
  }
}

=== FILE: slots_controller.dfy ===
/**
 The slot handlers. The current time is a parameter: a slot is upcoming when
 it starts strictly after `now` and past when it starts strictly before it.
 */
module SlotsController {
  import opened Tables
  import opened Schema

  predicate Upcoming(s: Slot, now: Time)
  {
    s.startTime > now
  }

  predicate Past(s: Slot, now: Time)
  {
    s.startTime < now
  }

  /** Some call row references the slot with this key. */
  predicate HasCall(db: Db, sid: Id)
  {
    exists cid :: cid in db.calls.rows && db.calls.rows[cid].slotId == sid
  }

  /** The rows the slot contributes to the left outer join with Calls, by
      their `Calls.call_id`: one row per referencing call, or a single row
      with a NULL call when no call references the slot. Grouping by
      `(Slots.slot_id, Calls.call_id)` makes each of these rows a group of
      its own. */
  function JoinGroups(db: Db, sid: Id): set<Option<Id>>
  {
    var refs := set cid | cid in db.calls.rows && db.calls.rows[cid].slotId == sid;
    if refs == {} then {None} else set cid | cid in refs :: Some(cid)
  }

  /** `COUNT(Calls.slot_id)` of a one-row group: NULL is not counted. */
  function GroupCount(g: Option<Id>): nat
  {
    if g.Some? then 1 else 0
  }

  /** `HAVING COUNT(Calls.slot_id) = 0` keeps a group of the slot exactly
      when no call references the slot: a slot with calls has only groups
      of count 1, and a slot without calls has the one NULL group. */
  lemma HavingCountZeroIffNoCall(db: Db, sid: Id)
    ensures (exists g :: g in JoinGroups(db, sid) && GroupCount(g) == 0) <==> !HasCall(db, sid)
  {
    var refs := set cid | cid in db.calls.rows && db.calls.rows[cid].slotId == sid;
    if HasCall(db, sid) {
      var cid :| cid in db.calls.rows && db.calls.rows[cid].slotId == sid;
      assert cid in refs;
    } else {
      assert forall cid :: cid !in refs;
      assert refs == {};
      assert None in JoinGroups(db, sid);
    }
  }

  /** `include: Students` (a left outer join): the slot's student, or null. */
  function StudentOf(db: Db, s: Slot): (a: Option<Account>)
    ensures a.Some? <==> s.studentId.Some? && s.studentId.value in db.students.rows
    ensures a.Some? ==> a.value == db.students.rows[s.studentId.value]
  {
    if s.studentId.Some? && s.studentId.value in db.students.rows
    then Some(db.students.rows[s.studentId.value])
    else None
  }

  /** `include: Coaches` (a left outer join): the slot's coach, or null. */
  function CoachOf(db: Db, s: Slot): (a: Option<Account>)
    ensures a.Some? <==> s.coachId in db.coaches.rows
    ensures a.Some? ==> a.value == db.coaches.rows[s.coachId]
  {
    if s.coachId in db.coaches.rows then Some(db.coaches.rows[s.coachId]) else None
  }

  /** POST /slots. */
  function CreateSlot(db: Db, b: SlotBody): (r: Reply<Row<Slot>>)
    requires StoreValid(db)
    ensures r.out.Created? || r.out.ServerError?
    ensures r.out.Created? <==>
      && b.coachId.Some? && b.startTime.Some?
      && b.coachId.value in db.coaches.rows
      && (b.studentId.Some? ==> b.studentId.value in db.students.rows)
    ensures r.out.ServerError? ==> r.db == db
    ensures r.out.Created? ==>
      && r.out.body.id !in db.slots.rows
      && db.slots.next <= r.out.body.id
      && r.out.body.rec == Slot(b.coachId.value, b.startTime.value, b.studentId)
      && r.db.slots.rows == db.slots.rows[r.out.body.id := r.out.body.rec]
      && r.db == db.(slots := r.db.slots)
    ensures StoreValid(r.db)
    ensures Referential(db) ==> Referential(r.db)
  {
    match SlotFields(b)
    case None => Reply(ServerError, db)
    case Some(s) =>
      if !SlotRefsOk(db, s) then Reply(ServerError, db)
      else
        var (row, t) := Insert(db.slots, s);
        Reply(Created(row), db.(slots := t))
  }

  /** GET /slots: the upcoming slots only. */
  function GetAllSlots(db: Db, now: Time): (r: Reply<map<Id, Slot>>)
    ensures r.db == db && r.out.Ok?
    ensures forall id :: id in r.out.body <==> id in db.slots.rows && db.slots.rows[id].startTime > now
    ensures forall id :: id in r.out.body ==> r.out.body[id] == db.slots.rows[id]
  {
    Reply(Ok(map id | id in db.slots.rows && Upcoming(db.slots.rows[id], now) :: db.slots.rows[id]), db)
  }

  /** GET /slots/coach/:coach_id: the coach's upcoming slots with their
      students; 404 when there are none. */
  function GetSlotsByCoachId(db: Db, now: Time, coachId: Id): (r: Reply<map<Id, With<Slot, Option<Account>>>>)
    ensures r.db == db
    ensures r.out.Ok? || r.out.NotFound?
    ensures r.out.Ok? ==> |r.out.body| > 0
    ensures r.out.NotFound? <==> forall id :: id in db.slots.rows ==>
      db.slots.rows[id].coachId != coachId || db.slots.rows[id].startTime <= now
    ensures r.out.Ok? ==> forall id :: id in r.out.body <==>
      id in db.slots.rows && db.slots.rows[id].coachId == coachId && db.slots.rows[id].startTime > now
    ensures r.out.Ok? ==> forall id :: id in r.out.body ==>
      r.out.body[id] == With(db.slots.rows[id], StudentOf(db, db.slots.rows[id]))
  {
    var found := map id | id in db.slots.rows && db.slots.rows[id].coachId == coachId && Upcoming(db.slots.rows[id], now)
                   :: With(db.slots.rows[id], StudentOf(db, db.slots.rows[id]));
    // `length === 0`, stated as "no row passes the filter": the solver cannot
    // produce a key from a nonempty map's size, so `|found| == 0` would not
    // connect to the rows; SizeOfNonEmpty gives the converse.
    if forall id :: id in db.slots.rows ==> !(db.slots.rows[id].coachId == coachId && Upcoming(db.slots.rows[id], now))
    then Reply(NotFound, db)
    else
      assert forall id :: (id in db.slots.rows && db.slots.rows[id].coachId == coachId
                           && Upcoming(db.slots.rows[id], now)) ==> id in found;
      SizeOfNonEmpty(found);
      Reply(Ok(found), db)
  }

  /** GET /slots/student/:student_id: all of the student's slots, at any
      time, with their coaches; 404 when there are none. */
  function GetSlotsByStudentId(db: Db, studentId: Id): (r: Reply<map<Id, With<Slot, Option<Account>>>>)
    ensures r.db == db
    ensures r.out.Ok? || r.out.NotFound?
    ensures r.out.Ok? ==> |r.out.body| > 0
    ensures r.out.NotFound? <==> forall id :: id in db.slots.rows ==>
      db.slots.rows[id].studentId != Some(studentId)
    ensures r.out.Ok? ==> forall id :: id in r.out.body <==>
      id in db.slots.rows && db.slots.rows[id].studentId == Some(studentId)
    ensures r.out.Ok? ==> forall id :: id in r.out.body ==>
      r.out.body[id] == With(db.slots.rows[id], CoachOf(db, db.slots.rows[id]))
  {
    var found := map id | id in db.slots.rows && db.slots.rows[id].studentId == Some(studentId)
                   :: With(db.slots.rows[id], CoachOf(db, db.slots.rows[id]));
    // `length === 0` as "no row passes the filter" (see GetSlotsByCoachId).
    if forall id :: id in db.slots.rows ==> db.slots.rows[id].studentId != Some(studentId)
    then Reply(NotFound, db)
    else
      assert forall id :: id in db.slots.rows && db.slots.rows[id].studentId == Some(studentId) ==> id in found;
      SizeOfNonEmpty(found);
      Reply(Ok(found), db)
  }

  /** PUT /slots/:id: validation first, then the UPDATE (whose foreign keys
      the store checks for a matched row), then a re-read. */
  function UpdateSlot(db: Db, id: Id, b: SlotBody): (r: Reply<Row<Slot>>)
    ensures r.out.Ok? || r.out.NotFound? || r.out.ServerError?
    ensures r.out.NotFound? <==> b.coachId.Some? && b.startTime.Some? && id !in db.slots.rows
    ensures r.out.ServerError? <==>
      || b.coachId.None? || b.startTime.None?
      || (id in db.slots.rows && !SlotRefsOk(db, Slot(b.coachId.value, b.startTime.value, b.studentId)))
    ensures !r.out.Ok? ==> r.db == db
    ensures r.out.Ok? ==>
      && r.out.body == Row(id, Slot(b.coachId.value, b.startTime.value, b.studentId))
      && r.db.slots.rows.Keys == db.slots.rows.Keys
      && r.db.slots.next == db.slots.next
      && r.db.slots.rows[id] == r.out.body.rec
      && (forall k :: k in db.slots.rows && k != id ==> r.db.slots.rows[k] == db.slots.rows[k])
      && r.db == db.(slots := r.db.slots)
    ensures StoreValid(db) ==> StoreValid(r.db)
    ensures Referential(db) ==> Referential(r.db)
  {
    match SlotFields(b)
    case None => Reply(ServerError, db)
    case Some(s) =>
      if id in db.slots.rows && !SlotRefsOk(db, s) then Reply(ServerError, db)
      else
        var (updated, t) := UpdateByPk(db.slots, id, s);
        if updated == 0 then Reply(NotFound, db)
        else
          var db' := db.(slots := t);
          Reply(Ok(Row(id, FindByPk(db'.slots, id).value)), db')
  }

  /** DELETE /slots/:id. Referencing calls are left alone (the store's
      cascade rules are not modelled). */
  function DeleteSlot(db: Db, id: Id): (r: Reply<()>)
    ensures r.out.NoContent? || r.out.NotFound?
    ensures r.out.NoContent? <==> id in db.slots.rows
    ensures r.out.NotFound? ==> r.db == db
    ensures r.db.slots.rows == db.slots.rows - {id}
    ensures r.db.slots.next == db.slots.next
    ensures r.db == db.(slots := r.db.slots)
    ensures StoreValid(db) ==> StoreValid(r.db)
    ensures Referential(db) && !HasCall(db, id) ==> Referential(r.db)
  {
    var (deleted, t) := DestroyByPk(db.slots, id);
    if deleted == 0 then Reply(NotFound, db)
    else Reply(NoContent, db.(slots := t))
  }

  /** GET /slots/past-without-calls/:coach_id: the coach's past slots that
      have a student and no call; 404 when there are none. */
  function GetPastSlotsWithoutCallsByCoachId(db: Db, now: Time, coachId: Id): (r: Reply<map<Id, Slot>>)
    ensures r.db == db
    ensures r.out.Ok? || r.out.NotFound?
    ensures r.out.Ok? ==> |r.out.body| > 0
    ensures r.out.Ok? ==> forall id :: id in r.out.body <==>
      && id in db.slots.rows
      && db.slots.rows[id].coachId == coachId
      && db.slots.rows[id].startTime < now
      && db.slots.rows[id].studentId.Some?
      && (forall cid :: cid in db.calls.rows ==> db.calls.rows[cid].slotId != id)
    ensures r.out.Ok? ==> forall id :: id in r.out.body ==> r.out.body[id] == db.slots.rows[id]
    ensures r.out.NotFound? <==> forall id :: id in db.slots.rows ==>
      || db.slots.rows[id].coachId != coachId
      || db.slots.rows[id].startTime >= now
      || db.slots.rows[id].studentId.None?
      || (exists cid :: cid in db.calls.rows && db.calls.rows[cid].slotId == id)
  {
    var found := map id | id in db.slots.rows
                          && db.slots.rows[id].coachId == coachId
                          && Past(db.slots.rows[id], now)
                          && db.slots.rows[id].studentId.Some?
                          && !HasCall(db, id)
                   :: db.slots.rows[id];
    // `length === 0` as "no row passes the filter" (see GetSlotsByCoachId).
    if forall id :: id in db.slots.rows ==>
         !(db.slots.rows[id].coachId == coachId && Past(db.slots.rows[id], now)
           && db.slots.rows[id].studentId.Some? && !HasCall(db, id))
    then Reply(NotFound, db)
    else
      assert forall id :: (id in db.slots.rows && db.slots.rows[id].coachId == coachId && Past(db.slots.rows[id], now)
                           && db.slots.rows[id].studentId.Some? && !HasCall(db, id)) ==> id in found;
      SizeOfNonEmpty(found);
      Reply(Ok(found), db)
  }

  /** Upcoming and past are disjoint, and a slot starting exactly at `now`
      is in neither listing. */
  lemma UpcomingAndPastDisjoint(db: Db, now: Time, coachId: Id)
    ensures var up := GetAllSlots(db, now).out.body;
            var past := GetPastSlotsWithoutCallsByCoachId(db, now, coachId).out;
      past.Ok? ==> up.Keys !! past.body.Keys
    ensures forall id :: id in db.slots.rows && db.slots.rows[id].startTime == now ==>
      && id !in GetAllSlots(db, now).out.body
      && (GetSlotsByCoachId(db, now, coachId).out.Ok? ==> id !in GetSlotsByCoachId(db, now, coachId).out.body)
      && (GetPastSlotsWithoutCallsByCoachId(db, now, coachId).out.Ok? ==>
            id !in GetPastSlotsWithoutCallsByCoachId(db, now, coachId).out.body)
  {
  }

  /** The per-coach listing is the coach's share of the unfiltered listing. */
  lemma CoachListingWithinAll(db: Db, now: Time, coachId: Id)
    requires GetSlotsByCoachId(db, now, coachId).out.Ok?
    ensures GetSlotsByCoachId(db, now, coachId).out.body.Keys ==
      set id | id in GetAllSlots(db, now).out.body && GetAllSlots(db, now).out.body[id].coachId == coachId
  {
  }

  /** Time only moves slots out of the upcoming listing, never into it. */
  lemma UpcomingShrinksOverTime(db: Db, earlier: Time, later: Time)
    requires earlier <= later
    ensures GetAllSlots(db, later).out.body.Keys <= GetAllSlots(db, earlier).out.body.Keys
  {
  }

  /** A slot created with a start time after `now` shows up in the upcoming
      listing and in its coach's listing. */
  lemma CreatedUpcomingIsListed(db: Db, b: SlotBody, now: Time)
    requires StoreValid(db)
    requires CreateSlot(db, b).out.Created?
    requires b.startTime.value > now
    ensures var c := CreateSlot(db, b);
      && c.out.body.id in GetAllSlots(c.db, now).out.body
      && GetSlotsByCoachId(c.db, now, b.coachId.value).out.Ok?
      && c.out.body.id in GetSlotsByCoachId(c.db, now, b.coachId.value).out.body
  {
    var c := CreateSlot(db, b);
    var id := c.out.body.id;
    assert id in c.db.slots.rows && c.db.slots.rows[id].coachId == b.coachId.value;
  }

  /** A deleted slot is gone: a second delete and an update both answer 404. */
  lemma DeleteThenGone(db: Db, id: Id, b: SlotBody)
    requires DeleteSlot(db, id).out.NoContent?
    requires SlotFields(b).Some?
    ensures var d := DeleteSlot(db, id).db;
      && DeleteSlot(d, id).out.NotFound?
      && UpdateSlot(d, id, b).out.NotFound?
  {
  }

  /** A slot created with a student appears in that student's listing,
      whatever its start time, joined with its coach. */
  lemma CreatedAssignedIsListed(db: Db, b: SlotBody)
    requires StoreValid(db)
    requires CreateSlot(db, b).out.Created?
    requires b.studentId.Some?
    ensures var c := CreateSlot(db, b);
            var listed := GetSlotsByStudentId(c.db, b.studentId.value).out;
      && listed.Ok?
      && c.out.body.id in listed.body
      && listed.body[c.out.body.id] == With(c.out.body.rec, Some(db.coaches.rows[b.coachId.value]))
  {
    var c := CreateSlot(db, b);
    assert c.db.slots.rows[c.out.body.id].studentId == b.studentId;
  }

  /** A slot key once deleted is never handed out again by auto-increment:
      not by a create that follows the delete directly or after an update
      and a bulk request (which may write the key back explicitly), and not
      to a keyless item of that bulk request. */
  lemma DeletedIdNotReused(db: Db, id: Id, b: SlotBody, u: Id, ub: SlotBody, items: seq<SlotItem>)
    requires StoreValid(db)
    requires DeleteSlot(db, id).out.NoContent?
    ensures var c := CreateSlot(DeleteSlot(db, id).db, b);
      c.out.Created? ==> c.out.body.id != id
    ensures var d := RunUpserts(UpdateSlot(DeleteSlot(db, id).db, u, ub).db, items).db;
            var c := CreateSlot(d, b);
      c.out.Created? ==> c.out.body.id != id
    ensures var run := RunUpserts(UpdateSlot(DeleteSlot(db, id).db, u, ub).db, items);
      forall i :: 0 <= i < |run.data| && items[i].slotId.None? ==> run.data[i].id != id
  {
    assert id < db.slots.next;
    BulkFreshKeysAboveCounter(UpdateSlot(DeleteSlot(db, id).db, u, ub).db, items);
  }

  /** One element of a bulk request: a slot body, with or without its key. */
  datatype SlotItem = SlotItem(slotId: Option<Id>, fields: SlotBody)

  /** One `Slots.upsert(slot)`: the record written and the new store, or
      None when the store rejects the item (a null required column or a
      dangling foreign key). */
  function UpsertSlot(db: Db, item: SlotItem): (r: Option<(Row<Slot>, Db)>)
    requires StoreValid(db)
    ensures r.Some? <==> SlotFields(item.fields).Some? && SlotRefsOk(db, SlotFields(item.fields).value)
    ensures r.Some? ==>
      && SlotFields(item.fields) == Some(r.value.0.rec)
      && (item.slotId.Some? ==> r.value.0.id == item.slotId.value)
      && (item.slotId.None? ==> r.value.0.id !in db.slots.rows && db.slots.next <= r.value.0.id)
      && db.slots.next <= r.value.1.slots.next
      && r.value.1.slots.rows == db.slots.rows[r.value.0.id := r.value.0.rec]
      && r.value.1 == db.(slots := r.value.1.slots)
      && StoreValid(r.value.1)
      && (Referential(db) ==> Referential(r.value.1))
  {
    match SlotFields(item.fields)
    case None => None
    case Some(s) =>
      if !SlotRefsOk(db, s) then None
      else
        var (row, t) := Upsert(db.slots, item.slotId, s);
        Some((row, db.(slots := t)))
  }

  /** The records written so far, the store reached, and whether an item
      was rejected (the one at index |data|). */
  datatype BulkRun = BulkRun(data: seq<Row<Slot>>, db: Db, failed: bool)

  /** Reference semantics of a bulk request: the items are upserted one
      after another, in input order, until one is rejected; nothing that was
      already written is undone. */
  function RunUpserts(db: Db, items: seq<SlotItem>): (r: BulkRun)
    requires StoreValid(db)
    ensures StoreValid(r.db)
    ensures r.db == db.(slots := r.db.slots)
    ensures db.slots.next <= r.db.slots.next
    ensures |r.data| <= |items|
    ensures !r.failed ==> |r.data| == |items|
    ensures r.failed ==> |r.data| < |items| && UpsertSlot(r.db, items[|r.data|]).None?
    decreases |items|
  {
    if |items| == 0 then BulkRun([], db, false)
    else
      match UpsertSlot(db, items[0])
      case None => BulkRun([], db, true)
      case Some((row, db1)) =>
        var rest := RunUpserts(db1, items[1..]);
        assert rest.failed ==> items[1..][|rest.data|] == items[1 + |rest.data|];
        BulkRun([row] + rest.data, rest.db, rest.failed)
  }

  /** POST /slots/bulk: upsert each element in order, collecting the
      records; the first rejected element turns the reply into a 500 while
      the elements before it stay written. */
  method CreateOrUpdateBulkSlots(db: Db, items: seq<SlotItem>) returns (r: Reply<seq<Row<Slot>>>)
    requires StoreValid(db)
    ensures r.out.Ok? || r.out.ServerError?
    ensures r.out.Ok? ==> |r.out.body| == |items|
    ensures r.out.ServerError? ==> |items| > 0
    ensures var run := RunUpserts(db, items);
      && (r.out.Ok? <==> !run.failed)
      && (r.out.Ok? ==> r.out.body == run.data)
      && r.db == run.db
  {
    var transactions: seq<Row<Slot>> := [];
    var cur := db;
    var rejected := false;
    var i := 0;
    while i < |items| && !rejected
      invariant 0 <= i <= |items|
      invariant |transactions| == i
      invariant StoreValid(cur)
      invariant !rejected ==> RunUpserts(db, items) == Resume(transactions, RunUpserts(cur, items[i..]))
      invariant rejected ==> RunUpserts(db, items) == BulkRun(transactions, cur, true)
      decreases |items| - i, if rejected then 0 else 1
    {
      var step := UpsertSlot(cur, items[i]);
      RunUpsertsStep(cur, items, i);
      if step.None? {
        rejected := true;
      } else {
        ResumeTwice(transactions, [step.value.0], RunUpserts(step.value.1, items[i + 1..]));
        transactions := transactions + [step.value.0];
        cur := step.value.1;
        i := i + 1;
      }
    }
    if rejected {
      r := Reply(ServerError, cur);
    } else {
      r := Reply(Ok(transactions), cur);
    }
  }

  /** A run that resumes after `done` records were already written. */
  function Resume(done: seq<Row<Slot>>, rest: BulkRun): (r: BulkRun)
    ensures |r.data| == |done| + |rest.data|
    ensures r.data[..|done|] == done && r.data[|done|..] == rest.data
    ensures r.db == rest.db && r.failed == rest.failed
  {
    BulkRun(done + rest.data, rest.db, rest.failed)
  }

  /** One step of the reference run, taken at index i of the items. */
  lemma RunUpsertsStep(db: Db, items: seq<SlotItem>, i: nat)
    requires StoreValid(db)
    requires i < |items|
    ensures UpsertSlot(db, items[i]).None? ==> RunUpserts(db, items[i..]) == BulkRun([], db, true)
    ensures UpsertSlot(db, items[i]).Some? ==>
      RunUpserts(db, items[i..]) ==
        Resume([UpsertSlot(db, items[i]).value.0], RunUpserts(UpsertSlot(db, items[i]).value.1, items[i + 1..]))
  {
    assert items[i..][0] == items[i];
    assert items[i..][1..] == items[i + 1..];
  }

  /** Resuming twice is resuming once after both prefixes. */
  lemma ResumeTwice(a: seq<Row<Slot>>, b: seq<Row<Slot>>, rest: BulkRun)
    ensures Resume(a, Resume(b, rest)) == Resume(a + b, rest)
  {
    assert a + (b + rest.data) == (a + b) + rest.data;
  }

  /** Some record of a bulk run was written under this key. */
  predicate Touches(data: seq<Row<Slot>>, id: Id)
  {
    exists i :: 0 <= i < |data| && data[i].id == id
  }

  /** No record after index i was written under the same key. */
  predicate LastWriteAt(data: seq<Row<Slot>>, i: int)
    requires 0 <= i < |data|
  {
    forall j :: i < j < |data| ==> data[j].id != data[i].id
  }

  /** A record written for an item without a key got an auto-incremented
      key at or above the counter the run started from, so it is none of
      the keys issued before the request, deleted ones included. */
  lemma {:induction false} BulkFreshKeysAboveCounter(db: Db, items: seq<SlotItem>)
    requires StoreValid(db)
    ensures var r := RunUpserts(db, items);
      forall i :: 0 <= i < |r.data| && items[i].slotId.None? ==> db.slots.next <= r.data[i].id
    decreases |items|
  {
    if |items| > 0 && UpsertSlot(db, items[0]).Some? {
      var (row, db1) := UpsertSlot(db, items[0]).value;
      BulkFreshKeysAboveCounter(db1, items[1..]);
      var rest := RunUpserts(db1, items[1..]);
      assert RunUpserts(db, items).data == [row] + rest.data;
      forall i | 0 <= i < |RunUpserts(db, items).data| && items[i].slotId.None?
        ensures db.slots.next <= RunUpserts(db, items).data[i].id
      {
        if i > 0 {
          assert items[1..][i - 1] == items[i];
          assert RunUpserts(db, items).data[i] == rest.data[i - 1];
        }
      }
    }
  }

  /** The returned records follow the input order: record i holds the
      columns of item i, under the item's key when it named one. */
  lemma {:induction false} BulkRecordsFollowItems(db: Db, items: seq<SlotItem>)
    requires StoreValid(db)
    ensures var r := RunUpserts(db, items);
      forall i :: 0 <= i < |r.data| ==>
        && SlotFields(items[i].fields) == Some(r.data[i].rec)
        && (items[i].slotId.Some? ==> r.data[i].id == items[i].slotId.value)
    decreases |items|
  {
    if |items| > 0 && UpsertSlot(db, items[0]).Some? {
      var (row, db1) := UpsertSlot(db, items[0]).value;
      BulkRecordsFollowItems(db1, items[1..]);
      var rest := RunUpserts(db1, items[1..]);
      var r := RunUpserts(db, items);
      assert r.data == [row] + rest.data;
      forall i | 1 <= i < |r.data|
        ensures SlotFields(items[i].fields) == Some(r.data[i].rec)
        ensures items[i].slotId.Some? ==> r.data[i].id == items[i].slotId.value
      {
        assert r.data[i] == rest.data[i - 1] && items[i] == items[1..][i - 1];
      }
    }
  }

  /** A row under a key no record of the run was written under is exactly as
      it was before the request. */
  lemma {:induction false} BulkLeavesOthers(db: Db, items: seq<SlotItem>, id: Id)
    requires StoreValid(db)
    requires !Touches(RunUpserts(db, items).data, id)
    ensures var r := RunUpserts(db, items);
      && (id in r.db.slots.rows <==> id in db.slots.rows)
      && (id in db.slots.rows ==> r.db.slots.rows[id] == db.slots.rows[id])
    decreases |items|
  {
    if |items| > 0 && UpsertSlot(db, items[0]).Some? {
      var (row, db1) := UpsertSlot(db, items[0]).value;
      var rest := RunUpserts(db1, items[1..]);
      var r := RunUpserts(db, items);
      assert r.data == [row] + rest.data;
      assert r.data[0] == row;
      assert row.id != id;
      assert !Touches(rest.data, id) by {
        forall i | 0 <= i < |rest.data| ensures rest.data[i].id != id {
          assert rest.data[i] == r.data[i + 1];
        }
      }
      BulkLeavesOthers(db1, items[1..], id);
    }
  }

  /** Earlier writes stay applied: a record that no later record of the run
      overwrote is in the final store. In particular, when item k is
      rejected, items 0..k-1 remain written. */
  lemma {:induction false} BulkKeepsEarlierWrites(db: Db, items: seq<SlotItem>, i: int)
    requires StoreValid(db)
    requires 0 <= i < |RunUpserts(db, items).data|
    requires LastWriteAt(RunUpserts(db, items).data, i)
    ensures var r := RunUpserts(db, items);
      r.data[i].id in r.db.slots.rows && r.db.slots.rows[r.data[i].id] == r.data[i].rec
    decreases |items|
  {
    var (row, db1) := UpsertSlot(db, items[0]).value;
    var rest := RunUpserts(db1, items[1..]);
    var r := RunUpserts(db, items);
    assert r.data == [row] + rest.data;
    if i == 0 {
      assert !Touches(rest.data, row.id) by {
        forall j | 0 <= j < |rest.data| ensures rest.data[j].id != row.id {
          assert rest.data[j] == r.data[j + 1];
        }
      }
      BulkLeavesOthers(db1, items[1..], row.id);
    } else {
      assert r.data[i] == rest.data[i - 1];
      assert LastWriteAt(rest.data, i - 1) by {
        forall j | i - 1 < j < |rest.data| ensures rest.data[j].id != rest.data[i - 1].id {
          assert rest.data[j] == r.data[j + 1];
        }
      }
      BulkKeepsEarlierWrites(db1, items[1..], i - 1);
    }
  }

  /** A run that stops at item k leaves the store exactly where a request
      holding only items 0..k-1 would have left it, with the same records. */
  lemma {:induction false} BulkFailureKeepsPrefix(db: Db, items: seq<SlotItem>)
    requires StoreValid(db)
    requires RunUpserts(db, items).failed
    ensures var r := RunUpserts(db, items);
      var p := RunUpserts(db, items[..|r.data|]);
      !p.failed && p.db == r.db && p.data == r.data
    decreases |items|
  {
    var r := RunUpserts(db, items);
    if UpsertSlot(db, items[0]).Some? {
      var (row, db1) := UpsertSlot(db, items[0]).value;
      var rest := RunUpserts(db1, items[1..]);
      BulkFailureKeepsPrefix(db1, items[1..]);
      var prefix := items[..|r.data|];
      assert prefix[0] == items[0];
      assert prefix[1..] == items[1..][..|rest.data|];
    } else {
      assert items[..0] == [];
    }
  }

  /** A bulk run keeps every foreign key pointing at an existing row. */
  lemma {:induction false} BulkPreservesReferential(db: Db, items: seq<SlotItem>)
    requires StoreValid(db) && Referential(db)
    ensures Referential(RunUpserts(db, items).db)
    decreases |items|
  {
    if |items| > 0 && UpsertSlot(db, items[0]).Some? {
      var (row, db1) := UpsertSlot(db, items[0]).value;
      BulkPreservesReferential(db1, items[1..]);
    }
  }

  /** A request of two elements, the first naming an existing key and the
      second naming none, updates exactly one row and adds exactly one. */
  lemma BulkUpdateThenInsert(db: Db, k: Id, f1: SlotBody, f2: SlotBody)
    requires StoreValid(db)
    requires k in db.slots.rows
    requires SlotFields(f1).Some? && SlotRefsOk(db, SlotFields(f1).value)
    requires SlotFields(f2).Some? && SlotRefsOk(db, SlotFields(f2).value)
    ensures var r := RunUpserts(db, [SlotItem(Some(k), f1), SlotItem(None, f2)]);
      && !r.failed
      && |r.data| == 2
      && r.data[0].id == k
      && r.data[1].id !in db.slots.rows
      && r.db.slots.rows.Keys == db.slots.rows.Keys + {r.data[1].id}
      && |r.db.slots.rows| == |db.slots.rows| + 1
      && r.db.slots.rows[k] == SlotFields(f1).value
      && r.db.slots.rows[r.data[1].id] == SlotFields(f2).value
  {
    var items := [SlotItem(Some(k), f1), SlotItem(None, f2)];
    var (row0, db1) := UpsertSlot(db, items[0]).value;
    assert db1.slots.rows.Keys == db.slots.rows.Keys;
    var (row1, db2) := UpsertSlot(db1, items[1]).value;
    assert items[1..] == [items[1]] && items[1..][1..] == [];
    assert RunUpserts(db2, []) == BulkRun([], db2, false);
    assert RunUpserts(db1, items[1..]) == BulkRun([row1], db2, false);
    var r := RunUpserts(db, items);
    assert r.data == [row0, row1] && r.db == db2;
  }
}

=== FILE: student_controller.dfy ===
/**
 The student handlers: create, list, get, update and delete over the Students
 table. Each handler is a transition from the store to a reply.
 */
module StudentController {
  import opened Tables
  import opened Schema

  /** POST /students: insert a student under a freshly allocated key. */
  function CreateStudent(db: Db, b: AccountBody): (r: Reply<Row<Account>>)
    requires StoreValid(db)
    ensures r.out.Created? || r.out.ServerError?
    ensures r.out.Created? <==> b.name.Some? && b.phoneNumber.Some? && b.password.Some?
    ensures r.out.ServerError? ==> r.db == db
    ensures r.out.Created? ==>
      && r.out.body.id !in db.students.rows
      && db.students.next <= r.out.body.id
      && r.out.body.rec == Account(b.name.value, b.phoneNumber.value, b.password.value)
      && r.db.students.rows == db.students.rows[r.out.body.id := r.out.body.rec]
      && r.db == db.(students := r.db.students)
    ensures StoreValid(r.db)
    ensures Referential(db) ==> Referential(r.db)
  {
    match AccountFields(b)
    case None => Reply(ServerError, db)
    case Some(a) =>
      var (row, t) := Insert(db.students, a);
      Reply(Created(row), db.(students := t))
  }

  /** GET /students: every stored student. */
  function GetAllStudents(db: Db): (r: Reply<map<Id, Account>>)
    ensures r.db == db && r.out.Ok?
    ensures r.out.body.Keys == db.students.rows.Keys
    ensures forall id :: id in r.out.body ==> r.out.body[id] == db.students.rows[id]
  {
    Reply(Ok(db.students.rows), db)
  }

  /** GET /students/:id. */
  function GetStudentById(db: Db, id: Id): (r: Reply<Row<Account>>)
    ensures r.db == db
    ensures r.out.Ok? || r.out.NotFound?
    ensures r.out.NotFound? <==> id !in db.students.rows
    ensures r.out.Ok? ==> r.out.body == Row(id, db.students.rows[id])
  {
    match FindByPk(db.students, id)
    case None => Reply(NotFound, db)
    case Some(a) => Reply(Ok(Row(id, a)), db)
  }

  /** PUT /students/:id: validation first, then the UPDATE, then a re-read. */
  function UpdateStudent(db: Db, id: Id, b: AccountBody): (r: Reply<Row<Account>>)
    ensures r.out.Ok? || r.out.NotFound? || r.out.ServerError?
    ensures r.out.ServerError? <==> AccountFields(b).None?
    ensures r.out.NotFound? <==> AccountFields(b).Some? && id !in db.students.rows
    ensures !r.out.Ok? ==> r.db == db
    ensures r.out.Ok? ==>
      && id in db.students.rows
      && r.out.body == Row(id, Account(b.name.value, b.phoneNumber.value, b.password.value))
      && r.db.students.rows.Keys == db.students.rows.Keys
      && r.db.students.next == db.students.next
      && r.db.students.rows[id] == r.out.body.rec
      && (forall k :: k in db.students.rows && k != id ==> r.db.students.rows[k] == db.students.rows[k])
      && r.db == db.(students := r.db.students)
    ensures StoreValid(db) ==> StoreValid(r.db)
    ensures Referential(db) ==> Referential(r.db)
  {
    match AccountFields(b)
    case None => Reply(ServerError, db)
    case Some(a) =>
      var (updated, t) := UpdateByPk(db.students, id, a);
      if updated == 0 then Reply(NotFound, db)
      else
        var db' := db.(students := t);
        Reply(Ok(Row(id, FindByPk(db'.students, id).value)), db')
  }

  /** DELETE /students/:id. Referencing slots are left alone (the store's
      cascade rules are not modelled). */
  function DeleteStudent(db: Db, id: Id): (r: Reply<()>)
    ensures r.out.NoContent? || r.out.NotFound?
    ensures r.out.NoContent? <==> id in db.students.rows
    ensures r.out.NotFound? ==> r.db == db
    ensures r.db.students.rows == db.students.rows - {id}
    ensures r.db.students.next == db.students.next
    ensures r.db == db.(students := r.db.students)
    ensures StoreValid(db) ==> StoreValid(r.db)
    ensures Referential(db) && (forall sid :: sid in db.slots.rows ==> db.slots.rows[sid].studentId != Some(id)) ==> Referential(r.db)
  {
    var (deleted, t) := DestroyByPk(db.students, id);
    if deleted == 0 then Reply(NotFound, db)
    else Reply(NoContent, db.(students := t))
  }

  /** Reading back a created student yields the fields that were posted. */
  lemma CreateThenGet(db: Db, b: AccountBody)
    requires StoreValid(db)
    requires CreateStudent(db, b).out.Created?
    ensures var c := CreateStudent(db, b);
      GetStudentById(c.db, c.out.body.id).out == Ok(c.out.body)
      && c.out.body.rec.name == b.name.value
      && c.out.body.rec.phoneNumber == b.phoneNumber.value
      && c.out.body.rec.password == b.password.value
  {
  }

  /** After a delete the student is gone: reading it, updating it or deleting
      it again all answer 404. */
  lemma DeleteThenGone(db: Db, id: Id, b: AccountBody)
    requires DeleteStudent(db, id).out.NoContent?
    requires AccountFields(b).Some?
    ensures var d := DeleteStudent(db, id).db;
      && GetStudentById(d, id).out.NotFound?
      && DeleteStudent(d, id).out.NotFound?
      && UpdateStudent(d, id, b).out.NotFound?
  {
  }

  /** A key once deleted is never handed out again by a later create. */
  lemma DeletedIdNotReused(db: Db, id: Id, b: AccountBody)
    requires StoreValid(db)
    requires DeleteStudent(db, id).out.NoContent?
    requires AccountFields(b).Some?
    ensures var c := CreateStudent(DeleteStudent(db, id).db, b);
      c.out.Created? && c.out.body.id != id
  {
  }

  /** A created student appears in the full listing with the posted fields. */
  lemma CreatedIsListed(db: Db, b: AccountBody)
    requires StoreValid(db)
    requires CreateStudent(db, b).out.Created?
    ensures var c := CreateStudent(db, b);
            var all := GetAllStudents(c.db).out.body;
      && c.out.body.id in all
      && all[c.out.body.id] == Account(b.name.value, b.phoneNumber.value, b.password.value)
      && all.Keys == GetAllStudents(db).out.body.Keys + {c.out.body.id}
  {
  }

  /** A deleted student no longer appears in the full listing, and every other
      student still does. */
  lemma DeletedIsUnlisted(db: Db, id: Id)
    ensures var all := GetAllStudents(DeleteStudent(db, id).db).out.body;
      && id !in all
      && all.Keys == GetAllStudents(db).out.body.Keys - {id}
  {
  }
}

=== FILE: tables.dfy ===
/**
 This module models one relational table as the ORM sees it: rows keyed by an
 auto-incremented integer primary key, together with the counter the store
 draws the next key from. Every write the controllers issue goes through one
 of the operations below (INSERT, UPSERT, UPDATE ... WHERE pk, DELETE ... WHERE pk).
 */
module Tables {

  /** Primary keys are integers. */
  type Id = int

  /** A nullable value: `None` is SQL NULL / JSON null. */
  datatype Option<+T> = None | Some(value: T)

  /** A row as the ORM returns it: its primary key next to its columns. */
  datatype Row<+R> = Row(id: Id, rec: R)

  /** The rows of a table and its auto-increment counter. */
  datatype Table<R> = Table(rows: map<Id, R>, next: Id)

  /** The auto-increment counter lies above every key in use, so a key it
      hands out is fresh. */
  ghost predicate Valid<R>(t: Table<R>)
  {
    forall id :: id in t.rows ==> id < t.next
  }

  /** A freshly created table. */
  function Empty<R>(): (t: Table<R>)
    ensures Valid(t)
    ensures |t.rows| == 0
  {
    Table(map[], 1)
  }

  /** INSERT with an auto-incremented key. */
  function Insert<R>(t: Table<R>, r: R): (res: (Row<R>, Table<R>))
    requires Valid(t)
    ensures res.0.rec == r
    ensures res.0.id !in t.rows
    ensures forall id :: id in t.rows ==> id < res.0.id
    ensures res.1.rows == t.rows[res.0.id := r]
    ensures t.next <= res.0.id < res.1.next
    ensures Valid(res.1)
  {
    (Row(t.next, r), Table(t.rows[t.next := r], t.next + 1))
  }

  /** INSERT ... ON CONFLICT (pk) DO UPDATE. Without a key the store
      allocates one; with a key the row under it is created or replaced, and
      the counter is moved past an explicitly supplied key. */
  function Upsert<R>(t: Table<R>, key: Option<Id>, r: R): (res: (Row<R>, Table<R>))
    requires Valid(t)
    ensures res.0.rec == r
    ensures key.Some? ==> res.0.id == key.value
    ensures key.None? ==> res.0.id !in t.rows && t.next <= res.0.id
    ensures res.1.rows == t.rows[res.0.id := r]
    ensures t.next <= res.1.next
    ensures Valid(res.1)
  {
    match key
    case None => Insert(t, r)
    case Some(k) => (Row(k, r), Table(t.rows[k := r], if k < t.next then t.next else k + 1))
  }

  /** SELECT ... WHERE pk = id. */
  function FindByPk<R>(t: Table<R>, id: Id): (r: Option<R>)
    ensures r.Some? <==> id in t.rows
    ensures r.Some? ==> r.value == t.rows[id]
  {
    if id in t.rows then Some(t.rows[id]) else None
  }

  /** UPDATE ... WHERE pk = id: the number of affected rows and the new table.
      (The ORM also bumps an `updatedAt` column, so a matched row always
      counts as affected.) */
  function UpdateByPk<R>(t: Table<R>, id: Id, r: R): (res: (nat, Table<R>))
    ensures res.0 <= 1
    ensures res.0 == 1 <==> id in t.rows
    ensures res.0 == 0 ==> res.1 == t
    ensures res.0 == 1 ==> res.1.rows == t.rows[id := r]
    ensures res.1.next == t.next
    ensures Valid(t) ==> Valid(res.1)
  {
    if id in t.rows then (1, Table(t.rows[id := r], t.next)) else (0, t)
  }

  /** DELETE ... WHERE pk = id: the number of deleted rows and the new table.
      The counter is untouched, so a deleted key is never handed out again. */
  function DestroyByPk<R>(t: Table<R>, id: Id): (res: (nat, Table<R>))
    ensures res.0 <= 1
    ensures res.0 == 1 <==> id in t.rows
    ensures res.0 == 0 ==> res.1 == t
    ensures res.1.rows == t.rows - {id}
    ensures res.1.next == t.next
    ensures Valid(t) ==> Valid(res.1)
  {
    if id in t.rows then (1, Table(t.rows - {id}, t.next)) else (0, t)
  }

  /** A map holding some key has nonzero size: a listing that matched a
      row is not the empty (404) listing. */
  lemma SizeOfNonEmpty<V>(m: map<Id, V>)
    ensures (exists k :: k in m) ==> |m| > 0
  {
    if exists k :: k in m {
      var k :| k in m;
      assert k in m.Keys;
    }
  }
}
